=== FILE: README.md ===
# Presence and relay core of a real-time chat application

This project is a Dafny model of the real-time layer of a chat application: a
Socket.IO server that tracks which users are connected and relays chat events,
and the client-side code that consumes it.

- **Server registry** (`Connections`): `connectedUsers`, user id to
  `{socketId, status, lastSeen}`. `setup` registers or overwrites an entry as
  online. `disconnect` scans the keys in iteration order and marks the first
  entry holding the closing socket offline. Entries are never deleted.
- **Server handlers** (`Relay`): every handler is one atomic step. It returns the
  new state (registry plus room membership), an outbox of `(target, event)`
  records, the advisory User-store writes, and whether the socket is dropped.
  Targets are named after the Socket.IO call: the socket itself, everyone but the
  sender, a room, or everyone.
- **Runs** (`Traces`): the server over sequences of events. It covers room
  membership as join history, last writer wins, `typing`, `stop typing` and
  `message read` reaching only joined connections, and `chat deleted` reaching all.
- **Client socket context** (`SocketClient`): the `onlineUsers` reducers and the
  logout clear. It also holds the typing debounce: a ref of chat id to timer
  handle, the browser's pending timers, and an explicit timer-fire transition.
- **Contacts page** (`Contacts`): the online / recently-online / offline
  classifier and the search filter.
- **Groups page** (`Groups`): adding and removing participants, the create-group
  request, the pinned/other split of group chats, and the membership test.
- **End to end** (`Sync`): after its own `setup`, a connection that applies the
  presence events it receives holds exactly the server registry's snapshot. This
  holds across any later events, from other connections or from its own chat
  traffic and repeated setups, up to its own `disconnect`. Its contacts page then
  shows a user online exactly when the registry does.

Time is an integer number of milliseconds. `toLowerCase` is modelled on ASCII
letters. `trim` strips exactly the ECMAScript white-space and line-terminator
code points.

Three behaviours of the server worth stating plainly:
- `Relay.Handle` accepts every event from every socket, before or after `setup`.
- `new message` checks only that `chat.users` is defined, and an empty list
  emits nothing.
- An offline entry keeps its `socketId`.

## Model

| member | source | states |
|---|---|---|
| Connections.Register | backend/index.js:48-52 | the user's entry becomes (socket, online, no last-seen), whatever was there before; every other entry is unchanged; an overwritten key keeps its iteration position and a new key iterates last |
| Connections.ScanFrom | backend/index.js:131-136 | the scan stops at the first position holding the socket, or at the end; no earlier position holds it |
| Connections.Owner | backend/index.js:130-136 | no owner exactly when no entry holds the socket; otherwise the owner holds it and is the first such key in iteration order, and is never the falsy empty id |
| Connections.MarkOffline | backend/index.js:141-145 | the entry keeps its socket id and becomes offline with last-seen = now; keys, order and all other entries are unchanged |
| Connections.Snapshot | backend/index.js:64-70 | the snapshot has exactly the registry's keys, each with that entry's status and last-seen |
| Relay.Join | backend/index.js:86-88 | joining adds the socket to that room and changes no other room |
| Relay.Setup | backend/index.js:42-84 | a setup without user data or `_id` changes nothing, emits nothing and drops the socket; otherwise the user is online on this socket, other entries are unchanged, the socket joins the user's room, the new socket gets a snapshot with the registry's keys in which the user is online with no last-seen, then everyone else gets the online delta, and one online write is issued; the snapshot sent is exactly the new registry's snapshot; an existing user keeps its place in the iteration order and a new user is appended last |
| Relay.FanOut | backend/index.js:96-101 | one emit per member occurrence whose id is not skipped: each user room gets exactly as many emits as its id occurs among the members (none for the skipped id), so the total equals the number of members not skipped (all of them when nothing is skipped); every emit carries the event and targets a member's user room |
| Relay.NewMessage | backend/index.js:91-102 | state unchanged; no emit when `chat.users` is missing; otherwise each member's user room gets the message exactly as many times as that member occurs in `chat.users`, the sender's room never, and the total is the number of non-sender members |
| Relay.ChatUpdatedStep | backend/index.js:113-118 | each member's user room, the sender's included, gets the updated chat exactly as many times as that member occurs in `chat.users`; one emit per member in total, and nothing else is emitted |
| Relay.Disconnect | backend/index.js:127-168 | rooms, key set and order unchanged; entries whose socket differs are untouched; if no entry holds the socket nothing changes and nothing is emitted; otherwise only the first holder becomes offline with last-seen = now, keeping its socket, and one offline delta to everyone else plus one offline write follow |
| Relay.Handle | backend/index.js:39-172 | the registry invariant is kept; only a malformed setup drops the socket; only setup and disconnect touch the registry; a socket is in a room afterwards iff it was before or this event joined it; presence events go only to, or around, the socket that caused them; `join chat` emits nothing; `typing`, `stop typing` and `message read` leave the state unchanged and emit one notice to the chat's room, the receipt carrying the message id and the reader's id; `chat deleted` leaves the state unchanged and emits one notice to everyone; a valid setup keeps the iteration order for a known user and appends a new user last |
| Relay.ValidSetup | backend/index.js:43 | the setup guard: the payload is present and its `_id` is present and not the falsy empty string; `Relay.Handle` drops the socket exactly when it fails |
| Traces.Run | backend/index.js:37-52 | in every reachable state each registry key is listed once in iteration order and the empty id is never a key |
| Traces.RoomMembershipIsJoinHistory | backend/index.js:42-88 | after any run, a socket is in a room iff some handled event was its `join chat` for that room or its successful `setup` as that user |
| Traces.RoomsOnlyGrow | backend/index.js:86-88 | room membership after a prefix of a run is contained in membership after the whole run |
| Traces.TypingReachesOnlyJoined | backend/index.js:104 | `typing` for a chat emits one notice to that chat's room and changes nothing; the notice reaches only connections that earlier joined that room |
| Traces.StopTypingReachesOnlyJoined | backend/index.js:105 | `stop typing` for a chat emits one notice to that chat's room and changes nothing; the notice reaches only connections that earlier joined that room |
| Traces.MessageReadReachesOnlyJoined | backend/index.js:107-110 | `message read` emits one `{messageId, userId}` receipt to the chat's room and changes nothing; it reaches only connections that earlier joined that room |
| Traces.ChatDeletedReachesEveryone | backend/index.js:120-123 | `chat deleted` changes nothing and emits one notice carrying the chat id that reaches every connection |
| Traces.StaleDisconnectKeepsUserOnline | backend/index.js:42-161 | after setup on s1 then on s2 as the same user, closing s1 leaves the user online on s2 |
| Traces.SetupThenDisconnectIsOffline | backend/index.js:127-161 | a user set up on a socket no other entry holds is offline with last-seen = the disconnect time once that socket closes, and exactly one offline delta goes to everyone else |
| SocketClient.StartIsWellFormed | front/src/contexts/SocketContext.jsx:11-12 | the initial client, with no timers and no socket, satisfies the timer and socket invariants |
| SocketClient.OneTimerPerChat | front/src/contexts/SocketContext.jsx:67-75 | under the timer invariant at most one timer is pending per chat |
| SocketClient.UserChanged | front/src/contexts/SocketContext.jsx:14-61 | a new user gets a freshly numbered socket (the count of opened sockets grows by one) and the previous one is disconnected, keeping `onlineUsers`; logging out with a socket drops it and empties `onlineUsers`; logging out without one changes nothing else; the timer invariant and the socket invariant are kept, and the current socket is never one just closed |
| SocketClient.DroppedSocketStaysSilent | front/src/contexts/SocketContext.jsx:48-54 | a socket dropped on a user change never sends `setup` again: its late `connect` finds it is no longer the current socket |
| SocketClient.Connected | front/src/contexts/SocketContext.jsx:20-24 | on connect of the current socket the client sends `setup` carrying the current user, and nothing otherwise |
| SocketClient.StatusUpdate | front/src/contexts/SocketContext.jsx:32-38 | the delta's user gets `{status, lastSeen}`; every other key keeps its value; nothing else in the client changes |
| SocketClient.OnlineUsersReceived | front/src/contexts/SocketContext.jsx:41-44 | `onlineUsers` becomes the received snapshot, with no merge of prior state |
| SocketClient.CancelTimer | front/src/contexts/SocketContext.jsx:77-80 | afterwards no timer is pending or recorded for the chat; other chats' timers are untouched |
| SocketClient.SendTyping | front/src/contexts/SocketContext.jsx:64-83 | without a socket nothing happens; typing sends `typing` and leaves exactly one pending timer for the chat, a fresh one; not typing always sends `stop typing` and leaves no timer for the chat; other chats' pending timers and recorded handles are untouched |
| SocketClient.TimerFired | front/src/contexts/SocketContext.jsx:72-75 | a pending timer that fires sends `stop typing` for its chat on the socket it captured and leaves no timer for that chat; other chats' pending timers and recorded handles are untouched |
| SocketClient.RetypingReplacesTimer | front/src/contexts/SocketContext.jsx:67-75 | typing twice in one chat leaves only the second timer pending; the first can never fire |
| Contacts.GetOnlineStatus | front/src/pages/ContactsPage.jsx:76-100 | no entry means offline; status online means online regardless of last-seen; recently-online iff not online, last-seen set and now - last-seen under 15 minutes (future last-seen included); everything else offline; the colour follows the badge |
| Contacts.OnlineIgnoresClock | front/src/pages/ContactsPage.jsx:82-84 | whether a contact shows online does not depend on the clock |
| Contacts.OfflineStaysOffline | front/src/pages/ContactsPage.jsx:86-99 | a contact shown offline stays offline at every later time while the presence map is unchanged |
| Contacts.Matches | front/src/pages/ContactsPage.jsx:70-73 | the filter callback, written with `includes`, holds exactly when the lower-cased term occurs at some position of the lower-cased name or e-mail |
| Contacts.FilterContacts | front/src/pages/ContactsPage.jsx:70-73 | a contact is kept iff the lower-cased term occurs in its lower-cased name or e-mail; the result is an order-preserving subsequence of all contacts with one entry per matching occurrence; an empty term keeps everyone |
| Text.Lower | front/src/pages/ContactsPage.jsx:71-72 | `toLowerCase`: the same length, each character folded; ASCII letters only, as the `Text.Lower` line under Left out records |
| Text.LowerIdempotent | front/src/pages/ContactsPage.jsx:71-72 | lower-casing an already lower-cased string changes nothing |
| Text.Includes | front/src/pages/ContactsPage.jsx:71-72 | `includes` holds exactly when the needle occurs at some position of the string |
| Text.IncludesEmpty | front/src/pages/ContactsPage.jsx:71-72 | the empty term occurs in every string |
| Text.Trim | front/src/pages/GroupPage.jsx:79 | `trim` yields the empty string exactly when every character is ECMAScript white space or a line terminator, and otherwise a string that neither starts nor ends with one |
| Seqs.Filter | front/src/pages/GroupPage.jsx:74 | `filter` keeps exactly the elements satisfying the predicate, one per occurrence, as an order-preserving subsequence |
| Seqs.FilterKeepsAll | front/src/pages/ContactsPage.jsx:70-73 | when every element satisfies the predicate, `filter` returns the list unchanged |
| Seqs.Any | front/src/pages/GroupPage.jsx:204 | `some` holds exactly when some element satisfies the predicate |
| Groups.MessageOr | front/src/pages/GroupPage.jsx:67 | the error shown after a failed search (and, the same way, after a failed create at line 95) is the server's message when it is present and non-empty, and the fallback otherwise; with a non-empty fallback it is never empty |
| Groups.Usable | front/src/pages/GroupPage.jsx:59 | the add guard: the search returned a user whose id is present, not the falsy empty string, and not the current user's; `Groups.AddParticipant` appends exactly in this case |
| Groups.EmailTaken | front/src/pages/GroupPage.jsx:49 | holds exactly when some participant's e-mail equals the typed e-mail |
| Groups.AddParticipant | front/src/pages/GroupPage.jsx:42-71 | an empty e-mail or an already listed one sets the matching error and changes nothing else; otherwise a usable found user (non-empty id other than the current user's) is appended and the input and error cleared, an unusable search result sets the not-found error, and a failed search sets the server's message or the fallback; every error path changes only the error; the list changes iff no error is set; the current user is never a participant; e-mails stay distinct when the lookup returns the typed e-mail |
| Groups.RemoveParticipant | front/src/pages/GroupPage.jsx:73-75 | exactly the participants with that id are dropped and the rest keep their order |
| Groups.CreateGroup | front/src/pages/GroupPage.jsx:77-99 | a name that trims to nothing is rejected with an error and no request; otherwise the request carries the name as typed and the participants' ids in order followed by the current user's id; success resets name, description and participants and closes the dialog; failure only sets the error |
| Groups.UserGroups | front/src/pages/GroupPage.jsx:118 | exactly the group chats neither archived nor pinned, in order, one entry per occurrence |
| Groups.PinnedGroups | front/src/pages/GroupPage.jsx:119 | exactly the pinned group chats not archived, in order, one entry per occurrence |
| Groups.GroupListsPartition | front/src/pages/GroupPage.jsx:118-119 | no chat is in both lists, and a chat is in one of them iff it is a non-archived group chat |
| Groups.IsMember | front/src/pages/GroupPage.jsx:204 | "already member" iff the current user's id is among the group's member ids |
| Sync.Receive | front/src/contexts/SocketContext.jsx:32-44 | the client's listeners: a snapshot replaces `onlineUsers`, a delta merges one user's `{status, lastSeen}`, any other event leaves the client unchanged, and nothing but `onlineUsers` ever changes |
| Sync.ForeignStepKeepsView | front/src/contexts/SocketContext.jsx:31-44 | when another connection's event is handled, the presence events reaching a client whose map equals the registry snapshot bring it to the new snapshot |
| Sync.OwnSetupLoadsSnapshot | backend/index.js:63-78 | a connection's own setup replaces its presence map with the new registry snapshot; its own online delta does not reach it |
| Sync.OwnStepKeepsView | backend/index.js:86-123 | the connection's own later events other than `disconnect` (a repeated or rejected setup, joins, typing, messages, receipts, chat updates and deletions) keep its presence map equal to the registry snapshot |
| Sync.ViewConvergesAfterSetup | front/src/contexts/SocketContext.jsx:31-44 | after its setup and any later events from any connection short of its own `disconnect`, a client's `onlineUsers` equals the server registry's snapshot |
| Sync.ContactsShowRegistryPresence | front/src/pages/ContactsPage.jsx:76-84 | on such a client the contacts page shows a user online exactly when the server registry has them online |
| Sync.LogoutShowsEveryoneOffline | front/src/contexts/SocketContext.jsx:55-59 | after logging out with a socket, the contacts page shows every user offline |
| Sync.ConnectedSetupAccepted | front/src/contexts/SocketContext.jsx:20-24 | the `setup` the connect listener sends is one event; the server drops the socket exactly when the user's id is empty, and otherwise registers that user online on the connection it arrived on |

## Left out

- Socket.IO delivery: emits are records. `Traces.Reaches` resolves a room target
  to the room's members, without the exclusion of the sending socket that
  `socket.to`/`socket.in` apply. Acknowledgement and loss are not modelled.
- Transport teardown: Socket.IO removes a closed socket from its rooms. The
  handlers never do this themselves, so the model keeps the membership.
- MongoDB writes (`User.findByIdAndUpdate`): they appear only as an advisory
  write log. Their failures are caught and logged and never touch the registry.
- Interleaving at `await`: each handler is one atomic step, and the snapshot is
  taken from the state after the step.
- Payloads that make a handler throw are outside the model's types: a
  `new message` without `chat` or `sender`, a `chat updated` without `users`, or
  a null `message read` payload.
- Console logging, and the user's `name` read only for a log line.
- JavaScript key order: the model uses insertion order, which is what
  `for...in` does for keys that are not array indices (MongoDB ids never are).
- Connections.Register: the `setup` id is client-supplied and not validated, and
  the registry is a plain object. An id of `"__proto__"` therefore replaces the
  object's prototype instead of adding a key; `for...in` then lists the new
  prototype's `socketId`, `status` and `lastSeen` as fake users, and the
  disconnect scan never finds the real one. The model treats every non-empty id
  as an ordinary key.
- Dates: `lastSeen` is an integer millisecond time rather than an ISO string.
  The 15-minute test is `now - lastSeen < 900000` in place of the floating-point
  `diffMinutes < 15`.
- The "last seen ..." text built by `formatDistanceToNowStrict`, and the
  online/offline labels: the badge carries the time the text is formatted from.
- Text.Lower: folds only ASCII letters, not the full Unicode `toLowerCase`.
- Groups.AddParticipant: e-mail distinctness is proved only when the search
  returns a user whose e-mail equals the typed text. The duplicate check compares
  the typed text, and the search endpoint is not part of this model.
- React state batching and rendering, the `isConnected` and `loading` flags,
  `handleJoinGroup`, `handleCreatePrivateChat` and the contact list fetch. These
  are axios calls, alerts and UI.
- The effect cleanup's `off` and `disconnect()` calls are not modelled one by
  one. Their effect, that a dropped socket's listeners no longer act, is modelled
  by the current-socket guard in `SocketClient.Connected`.
- Real timers: `setTimeout`/`clearTimeout` are a set of pending timers plus an
  explicit fire event. Delays are not modelled.

=== FILE: connections.dfy ===
/**
 The server's `connectedUsers` registry: user id to `{socketId, status, lastSeen}`.
 Entries are created by `setup`, flipped to offline by `disconnect`, and never removed.
 */
module Connections {
  import opened Wrappers
  import opened Presence

  /** One value of `connectedUsers`. */
  datatype Entry = Entry(socketId: SocketId, status: Status, lastSeen: Option<Time>)

  /**
   The registry. `order` is the order in which `for (const userId in connectedUsers)`
   visits the keys: insertion order, an overwrite keeping the key's place.
   */
  datatype Registry = Registry(entries: map<UserId, Entry>, order: seq<UserId>)

  const Empty: Registry := Registry(map[], [])

  /** `order` lists every key exactly once, and the falsy id `""` is never a key. */
  ghost predicate Valid(r: Registry)
  {
    && (forall i, j :: 0 <= i < j < |r.order| ==> r.order[i] != r.order[j])
    && (forall u :: u in r.entries <==> u in r.order)
    && "" !in r.entries
  }

  /** `u`'s entry records socket `s`. */
  predicate Holds(r: Registry, u: UserId, s: SocketId)
  {
    u in r.entries && r.entries[u].socketId == s
  }

  /** `a` and `b` have the same keys and values, except possibly at `u`. */
  ghost predicate AgreeExcept(a: map<UserId, Entry>, b: map<UserId, Entry>, u: UserId)
  {
    forall v :: v != u ==> (v in a <==> v in b) && (v in a ==> a[v] == b[v])
  }

  /** Setup's write: `u` maps to a fresh entry holding `s`, online, with no last-seen time. */
  function Register(r: Registry, u: UserId, s: SocketId): (r': Registry)
    requires Valid(r)
    requires u != ""
    ensures Valid(r')
    ensures u in r'.entries && r'.entries[u] == Entry(s, Online, None)
    ensures AgreeExcept(r.entries, r'.entries, u)
    ensures u in r.entries ==> r'.order == r.order
    ensures u !in r.entries ==> r'.order == r.order + [u]
  {
    Registry(r.entries[u := Entry(s, Online, None)], if u in r.entries then r.order else r.order + [u])
  }

  /** The disconnect loop from position `k` on: the first index whose entry holds `s`, or `|order|`. */
  function ScanFrom(r: Registry, s: SocketId, k: nat): (i: nat)
    requires k <= |r.order|
    ensures k <= i <= |r.order|
    ensures forall j :: k <= j < i ==> !Holds(r, r.order[j], s)
    ensures i < |r.order| ==> Holds(r, r.order[i], s)
    decreases |r.order| - k
  {
    if k == |r.order| then k
    else if Holds(r, r.order[k], s) then k
    else ScanFrom(r, s, k + 1)
  }

  /** `disconnectedUserId`: the first key, in iteration order, whose entry holds socket `s`. */
  function Owner(r: Registry, s: SocketId): (o: Option<UserId>)
    requires Valid(r)
    ensures o.None? <==> forall u :: u in r.entries ==> r.entries[u].socketId != s
    ensures o.Some? ==> Holds(r, o.value, s) && o.value != ""
    ensures o.Some? ==> exists i :: 0 <= i < |r.order| && r.order[i] == o.value
                                   && forall j :: 0 <= j < i ==> !Holds(r, r.order[j], s)
  {
    var i := ScanFrom(r, s, 0);
    if i < |r.order| then Some(r.order[i])
    else
      assert forall u :: u in r.entries ==> r.entries[u].socketId != s by {
        forall u | u in r.entries ensures r.entries[u].socketId != s {
          assert u in r.order;
          var j :| 0 <= j < |r.order| && r.order[j] == u;
          assert !Holds(r, r.order[j], s);
        }
      }
      None
  }

  /** Disconnect's write: `u`'s entry goes offline, last seen `now`, and keeps its socket id. */
  function MarkOffline(r: Registry, u: UserId, now: Time): (r': Registry)
    requires Valid(r)
    requires u in r.entries
    ensures Valid(r')
    ensures r'.order == r.order && r'.entries.Keys == r.entries.Keys
    ensures r'.entries[u] == Entry(r.entries[u].socketId, Offline, Some(now))
    ensures AgreeExcept(r.entries, r'.entries, u)
  {
    Registry(r.entries[u := r.entries[u].(status := Offline, lastSeen := Some(now))], r.order)
  }

  /** `allCurrentStatuses`: every key of the registry with its status and last-seen time, without socket ids. */
  function Snapshot(r: Registry): (m: Statuses)
    ensures m.Keys == r.entries.Keys
    ensures forall u :: u in m ==> m[u].status == r.entries[u].status && m[u].lastSeen == r.entries[u].lastSeen
  {
    map u | u in r.entries :: StatusInfo(r.entries[u].status, r.entries[u].lastSeen)
  }
}

=== FILE: contacts.dfy ===
/** The contacts page: the search filter and the presence badge of each contact. */
module Contacts {
  import Presence
  import Seqs
  import Text

  /** An element of `allUsers` as returned by the user listing. */
  datatype Contact = Contact(id: Presence.UserId, name: string, email: string)

  /** The badge: `online`, `recently-online` (with the time the "last seen" text is formatted from), or `offline`. */
  datatype Indicator = Online | RecentlyOnline(lastSeen: Presence.Time) | Offline

  datatype StatusView = StatusView(indicator: Indicator, color: string)

  /** "Recently online" means last seen less than 15 minutes ago. */
  const RecentWindowMs: int := 15 * 60 * 1000

  const OnlineColor: string := "success.main"
  const RecentColor: string := "warning.main"
  const OfflineColor: string := "error.main"

  function ColorOf(i: Indicator): string
  {
    match i
    case Online => OnlineColor
    case RecentlyOnline(_) => RecentColor
    case Offline => OfflineColor
  }

  /** `getOnlineStatus(contactId)` against the client's `onlineUsers` at clock `now`. */
  function GetOnlineStatus(onlineUsers: Presence.Statuses, contactId: Presence.UserId, now: Presence.Time): (v: StatusView)
    ensures contactId !in onlineUsers ==> v.indicator == Offline
    ensures contactId in onlineUsers && onlineUsers[contactId].status == Presence.Online ==> v.indicator == Online
    ensures v.indicator == Online ==> contactId in onlineUsers && onlineUsers[contactId].status == Presence.Online
    ensures v.indicator.RecentlyOnline? <==>
              && contactId in onlineUsers && onlineUsers[contactId].status != Presence.Online
              && onlineUsers[contactId].lastSeen.Some?
              && now - onlineUsers[contactId].lastSeen.value < RecentWindowMs
    ensures v.indicator.RecentlyOnline? ==> v.indicator.lastSeen == onlineUsers[contactId].lastSeen.value
    ensures v.color == ColorOf(v.indicator)
  {
    if contactId !in onlineUsers then StatusView(Offline, OfflineColor)
    else
      var info := onlineUsers[contactId];
      if info.status == Presence.Online then StatusView(Online, OnlineColor)
      else if info.lastSeen.Some? && now - info.lastSeen.value < RecentWindowMs then
        StatusView(RecentlyOnline(info.lastSeen.value), RecentColor)
      else StatusView(Offline, OfflineColor)
  }

  /** Whether a contact is online does not depend on the clock. */
  lemma OnlineIgnoresClock(onlineUsers: Presence.Statuses, id: Presence.UserId, now1: Presence.Time, now2: Presence.Time)
    ensures GetOnlineStatus(onlineUsers, id, now1).indicator == Online
            <==> GetOnlineStatus(onlineUsers, id, now2).indicator == Online
  {
  }

  /** Once a contact shows offline, it stays offline as the clock advances (while `onlineUsers` is unchanged). */
  lemma OfflineStaysOffline(onlineUsers: Presence.Statuses, id: Presence.UserId, now: Presence.Time, later: Presence.Time)
    requires now <= later
    requires GetOnlineStatus(onlineUsers, id, now).indicator == Offline
    ensures GetOnlineStatus(onlineUsers, id, later).indicator == Offline
  {
  }

  /** The search criterion: the lower-cased term occurs in the lower-cased name or e-mail. */
  ghost predicate MatchesSearch(u: Contact, term: string)
  {
    || (exists i :: Text.OccursAt(Text.Lower(u.name), Text.Lower(term), i))
    || (exists i :: Text.OccursAt(Text.Lower(u.email), Text.Lower(term), i))
  }

  /** The filter callback, written with `includes` as the page writes it. */
  predicate Matches(u: Contact, term: string): (b: bool)
    ensures b <==> MatchesSearch(u, term)
  {
    Text.Includes(Text.Lower(u.name), Text.Lower(term)) || Text.Includes(Text.Lower(u.email), Text.Lower(term))
  }

  /** `filteredUsers`: the contacts matching the search term, in their original order. */
  function FilterContacts(all: seq<Contact>, term: string): (r: seq<Contact>)
    ensures forall u :: u in r ==> u in all && MatchesSearch(u, term)
    ensures forall u :: u in all && MatchesSearch(u, term) ==> u in r
    ensures Seqs.SubsequenceOf(r, all)
    ensures |r| == Seqs.CountWhere(all, (u: Contact) => Matches(u, term))
    ensures term == "" ==> r == all
  {
    var r := Seqs.Filter(all, (u: Contact) => Matches(u, term));
    assert forall u :: u in r ==> u in all && Matches(u, term) by {
      forall u | u in r ensures u in all && Matches(u, term) {
        var i :| 0 <= i < |r| && r[i] == u;
      }
    }
    assert forall u :: u in all && Matches(u, term) ==> u in r by {
      forall u | u in all && Matches(u, term) ensures u in r {
        var i :| 0 <= i < |all| && all[i] == u;
      }
    }
    if term == "" then
      assert Text.Lower(term) == "";
      forall u ensures Matches(u, term) {
        Text.IncludesEmpty(Text.Lower(u.name));
      }
      Seqs.FilterKeepsAll(all, u => Matches(u, term));
      r
    else
      r
  }
}

=== FILE: groups.dfy ===
/**
 The groups page: the participant list of the "create group" dialog, the
 request it submits, the pinned/other split of the user's group chats, and the
 "already member" test on public groups.
 */
module Groups {
  import opened Wrappers
  import opened Presence
  import Seqs
  import Text

  datatype Participant = Participant(id: UserId, name: string, email: string)

  /** The dialog's state. */
  datatype Form = Form(
    groupName: string,
    description: string,
    participants: seq<Participant>,
    email: string,
    searchError: string,
    creationError: string,
    dialogOpen: bool)

  /** The body of a successful `GET /users/search?email=...` (possibly `null`, possibly without `_id`). */
  datatype FoundUser = FoundUser(id: Option<UserId>, name: string, email: string)

  /** How the search request ended: a response body, or an error with an optional server message. */
  datatype Lookup = Found(user: Option<FoundUser>) | LookupFailed(message: Option<string>)

  const EmptyEmailError: string := "Email cannot be empty."
  const AlreadyAddedError: string := "Participant already added."
  const NotFoundError: string := "utilisateur non trouve ajoute un."
  const SearchFailedError: string := "impossible de trouver."
  const NameRequiredError: string := "Group name is required."
  const CreateFailedError: string := "Failed to create group."

  /** The server's error message, or `fallback` when it is missing or empty. */
  function MessageOr(message: Option<string>, fallback: string): (m: string)
    ensures message.Some? && message.value != "" ==> m == message.value
    ensures !(message.Some? && message.value != "") ==> m == fallback
    ensures fallback != "" ==> m != ""
  {
    if message.Some? && message.value != "" then message.value else fallback
  }

  /** Participants never include `me`, and every participant has a real (non-empty) id. */
  ghost predicate ParticipantsValid(ps: seq<Participant>, me: UserId)
  {
    forall i :: 0 <= i < |ps| ==> ps[i].id != "" && ps[i].id != me
  }

  ghost predicate DistinctEmails(ps: seq<Participant>)
  {
    forall i, j :: 0 <= i < j < |ps| ==> ps[i].email != ps[j].email
  }

  /** Some participant already has this e-mail. */
  function EmailTaken(ps: seq<Participant>, email: string): (b: bool)
    ensures b <==> exists i :: 0 <= i < |ps| && ps[i].email == email
  {
    Seqs.Any(ps, (p: Participant) => p.email == email)
  }

  /** The search found a user with a real id other than the current user's: the one case that adds. */
  predicate Usable(lookup: Lookup, me: UserId)
  {
    && lookup.Found? && lookup.user.Some? && lookup.user.value.id.Some?
    && lookup.user.value.id.value != "" && lookup.user.value.id.value != me
  }

  /**
   `handleAddParticipant`. `lookup` is the search result for `f.email`; it is only
   consulted when the e-mail is non-empty and not already listed.
   */
  function AddParticipant(f: Form, me: UserId, lookup: Lookup): (r: Form)
    ensures r.groupName == f.groupName && r.description == f.description
    ensures r.creationError == f.creationError && r.dialogOpen == f.dialogOpen
    ensures f.email == "" ==> r == f.(searchError := EmptyEmailError)
    ensures f.email != "" && (exists i :: 0 <= i < |f.participants| && f.participants[i].email == f.email) ==>
              r == f.(searchError := AlreadyAddedError)
    ensures r.participants == f.participants <==> r.searchError != ""
    ensures r.participants != f.participants ==>
              && lookup.Found? && lookup.user.Some? && lookup.user.value.id.Some?
              && var u := lookup.user.value;
                 && r.participants == f.participants + [Participant(u.id.value, u.name, u.email)]
                 && u.id.value != "" && u.id.value != me
                 && r.email == "" && r.searchError == ""
    ensures f.email != "" && !EmailTaken(f.participants, f.email) && Usable(lookup, me) ==>
              var u := lookup.user.value;
              r == f.(participants := f.participants + [Participant(u.id.value, u.name, u.email)],
                      email := "", searchError := "")
    ensures f.email != "" && !EmailTaken(f.participants, f.email) && lookup.Found? && !Usable(lookup, me) ==>
              r == f.(searchError := NotFoundError)
    ensures f.email != "" && !EmailTaken(f.participants, f.email) && lookup.LookupFailed? ==>
              r == f.(searchError := MessageOr(lookup.message, SearchFailedError))
    ensures r.searchError != "" ==> r == f.(searchError := r.searchError)
    ensures ParticipantsValid(f.participants, me) ==> ParticipantsValid(r.participants, me)
    ensures (&& DistinctEmails(f.participants)
             && (lookup.Found? && lookup.user.Some? ==> lookup.user.value.email == f.email))
            ==> DistinctEmails(r.participants)
  {
    var f := f.(searchError := "");
    if f.email == "" then f.(searchError := EmptyEmailError)
    else if EmailTaken(f.participants, f.email) then f.(searchError := AlreadyAddedError)
    else
      match lookup
      case Found(found) =>
        if Usable(lookup, me) then
          var u := found.value;
          f.(participants := f.participants + [Participant(u.id.value, u.name, u.email)], email := "")
        else
          f.(searchError := NotFoundError)
      case LookupFailed(message) => f.(searchError := MessageOr(message, SearchFailedError))
  }

  /** `handleRemoveParticipant(id)`: drops exactly the participants with that id, keeping the rest in order. */
  function RemoveParticipant(f: Form, id: UserId): (r: Form)
    ensures forall i :: 0 <= i < |r.participants| ==> r.participants[i].id != id && r.participants[i] in f.participants
    ensures forall i :: 0 <= i < |f.participants| && f.participants[i].id != id ==> f.participants[i] in r.participants
    ensures Seqs.SubsequenceOf(r.participants, f.participants)
    ensures |r.participants| == Seqs.CountWhere(f.participants, (p: Participant) => p.id != id)
    ensures r == f.(participants := r.participants)
  {
    f.(participants := Seqs.Filter(f.participants, (p: Participant) => p.id != id))
  }

  /** The `createGroup` call: name and description as typed, and the member ids. */
  datatype GroupRequest = GroupRequest(name: string, description: string, userIds: seq<UserId>)

  /** How `createGroup` ended. */
  datatype CreateOutcome = Created | CreateFailed(message: Option<string>)

  /**
   `handleCreateGroup`. A name that trims to nothing is rejected before any
   request; otherwise the request carries every participant's id, in order,
   then the current user's, and `outcome` says how it ended.
   */
  function CreateGroup(f: Form, me: UserId, outcome: CreateOutcome): (res: (Form, Option<GroupRequest>))
    ensures Text.Blank(f.groupName) ==> res == (f.(creationError := NameRequiredError), None)
    ensures !Text.Blank(f.groupName) ==>
      && res.1.Some?
      && res.1.value.name == f.groupName && res.1.value.description == f.description
      && |res.1.value.userIds| == |f.participants| + 1
      && (forall i :: 0 <= i < |f.participants| ==> res.1.value.userIds[i] == f.participants[i].id)
      && res.1.value.userIds[|f.participants|] == me
    ensures !Text.Blank(f.groupName) && outcome.Created? ==>
      res.0 == f.(groupName := "", description := "", participants := [], creationError := "", dialogOpen := false)
    ensures !Text.Blank(f.groupName) && outcome.CreateFailed? ==>
      res.0 == f.(creationError := MessageOr(outcome.message, CreateFailedError))
  {
    var f := f.(creationError := "");
    if Text.Trim(f.groupName) == [] then (f.(creationError := NameRequiredError), None)
    else
      var ids := seq(|f.participants|, i requires 0 <= i < |f.participants| => f.participants[i].id) + [me];
      var request := GroupRequest(f.groupName, f.description, ids);
      match outcome
      case Created =>
        (f.(groupName := "", description := "", participants := [], dialogOpen := false), Some(request))
      case CreateFailed(message) =>
        (f.(creationError := MessageOr(message, CreateFailedError)), Some(request))
  }

  /** A chat in the user's chat list, with the flags the page filters on. */
  datatype ChatItem = ChatItem(id: ChatId, chatName: string, isGroupChat: bool, isArchived: bool,
                               isPinned: bool, users: seq<Member>)

  /** `allUserGroups`: group chats neither archived nor pinned. */
  function UserGroups(chats: seq<ChatItem>): (r: seq<ChatItem>)
    ensures forall i :: 0 <= i < |r| ==> r[i] in chats && r[i].isGroupChat && !r[i].isArchived && !r[i].isPinned
    ensures forall c :: c in chats && c.isGroupChat && !c.isArchived && !c.isPinned ==> c in r
    ensures Seqs.SubsequenceOf(r, chats)
    ensures |r| == Seqs.CountWhere(chats, (c: ChatItem) => c.isGroupChat && !c.isArchived && !c.isPinned)
  {
    var r := Seqs.Filter(chats, (c: ChatItem) => c.isGroupChat && !c.isArchived && !c.isPinned);
    assert forall c :: c in chats && c.isGroupChat && !c.isArchived && !c.isPinned ==> c in r by {
      forall c | c in chats && c.isGroupChat && !c.isArchived && !c.isPinned ensures c in r {
        var i :| 0 <= i < |chats| && chats[i] == c;
      }
    }
    r
  }

  /** `pinnedUserGroups`: pinned group chats that are not archived. */
  function PinnedGroups(chats: seq<ChatItem>): (r: seq<ChatItem>)
    ensures forall i :: 0 <= i < |r| ==> r[i] in chats && r[i].isGroupChat && r[i].isPinned && !r[i].isArchived
    ensures forall c :: c in chats && c.isGroupChat && c.isPinned && !c.isArchived ==> c in r
    ensures Seqs.SubsequenceOf(r, chats)
    ensures |r| == Seqs.CountWhere(chats, (c: ChatItem) => c.isGroupChat && c.isPinned && !c.isArchived)
  {
    var r := Seqs.Filter(chats, (c: ChatItem) => c.isGroupChat && c.isPinned && !c.isArchived);
    assert forall c :: c in chats && c.isGroupChat && c.isPinned && !c.isArchived ==> c in r by {
      forall c | c in chats && c.isGroupChat && c.isPinned && !c.isArchived ensures c in r {
        var i :| 0 <= i < |chats| && chats[i] == c;
      }
    }
    r
  }

  /**
   The two lists split the non-archived group chats: no chat is in both, and a
   chat is in one of them exactly when it is a group chat that is not archived.
   */
  lemma GroupListsPartition(chats: seq<ChatItem>, c: ChatItem)
    ensures !(c in UserGroups(chats) && c in PinnedGroups(chats))
    ensures c in UserGroups(chats) || c in PinnedGroups(chats) <==> c in chats && c.isGroupChat && !c.isArchived
  {
    var a := UserGroups(chats);
    var p := PinnedGroups(chats);
    if c in a {
      var i :| 0 <= i < |a| && a[i] == c;
    }
    if c in p {
      var i :| 0 <= i < |p| && p[i] == c;
    }
  }

  /** The current user is among the group's members: the page shows "already member" rather than "Join". */
  function IsMember(group: ChatItem, me: UserId): (b: bool)
    ensures b <==> me in MemberIds(group.users)
  {
    var b := Seqs.Any(group.users, (m: Member) => m.id == me);
    assert b ==> me in MemberIds(group.users);
    assert me in MemberIds(group.users) ==> b by {
      if me in MemberIds(group.users) {
        var m :| m in group.users && m.id == me;
        var i :| 0 <= i < |group.users| && group.users[i] == m;
      }
    }
    b
  }
}

=== FILE: presence.dfy ===
/** Identifiers and presence records shared by the server and the client. */
module Presence {
  import opened Wrappers

  /** A user's `_id`, also the name of that user's room. */
  type UserId = string
  /** A Socket.IO connection id (`socket.id`). */
  type SocketId = string
  /** A chat's `_id`, also the name of that chat's room. */
  type ChatId = string
  /** Milliseconds since the epoch, the unit of `Date.prototype.getTime`. */
  type Time = int

  datatype Status = Online | Offline

  /** What clients learn about a user: `{status, lastSeen}`, `lastSeen` being `null` while online. */
  datatype StatusInfo = StatusInfo(status: Status, lastSeen: Option<Time>)

  /** A presence map keyed by user id, as in the `online users` event and the client's `onlineUsers`. */
  type Statuses = map<UserId, StatusInfo>

  /** An element of a chat's `users` array; only its `_id` matters here. */
  datatype Member = Member(id: UserId)

  function MemberIds(members: seq<Member>): set<UserId>
  {
    set m | m in members :: m.id
  }
}

=== FILE: relay.dfy ===
/**
 The server's Socket.IO handlers. Each handler is one atomic step from a server
 state to a new state plus the events it emits (an outbox of target/event
 records), the advisory User-store writes it issues, and whether it drops the
 connection.
 */
module Relay {
  import opened Wrappers
  import opened Presence
  import opened Connections
  import Seqs

  /** A room name: a user id (user room) or a chat id (chat room). */
  type RoomName = string
  type Rooms = map<RoomName, set<SocketId>>

  /** The sockets that have joined `room`. */
  function RoomMembers(rooms: Rooms, room: RoomName): set<SocketId>
  {
    if room in rooms then rooms[room] else {}
  }

  /** `socket.join(room)`. */
  function Join(rooms: Rooms, room: RoomName, s: SocketId): (r: Rooms)
    ensures RoomMembers(r, room) == RoomMembers(rooms, room) + {s}
    ensures forall other :: other != room ==> RoomMembers(r, other) == RoomMembers(rooms, other)
  {
    rooms[room := RoomMembers(rooms, room) + {s}]
  }

  datatype Server = Server(registry: Registry, rooms: Rooms)

  /** The process at start-up: `connectedUsers = {}` and no rooms. */
  const Init: Server := Server(Empty, map[])

  ghost predicate Invariant(st: Server)
  {
    Valid(st.registry)
  }

  /** The `setup` payload: the client's user object; only `_id` is read (and `name`, for a log line). */
  datatype UserData = UserData(id: Option<UserId>, name: string)

  /** A message as the client forwards it; `chat.users` may be missing. */
  datatype Message = Message(id: string, content: string, senderId: UserId, chatId: ChatId,
                             chatUsers: Option<seq<Member>>)

  datatype Chat = Chat(id: ChatId, users: seq<Member>)

  /** Events a connection sends to the server, each tagged with the sending socket. */
  datatype Inbound =
    | OnSetup(socket: SocketId, userData: Option<UserData>)
    | OnJoinChat(socket: SocketId, chatId: ChatId)
    | OnNewMessage(socket: SocketId, message: Message)
    | OnTyping(socket: SocketId, chatId: ChatId)
    | OnStopTyping(socket: SocketId, chatId: ChatId)
    | OnMessageRead(socket: SocketId, messageId: string, userId: UserId, chatId: ChatId)
    | OnChatUpdated(socket: SocketId, chat: Chat)
    | OnChatDeleted(socket: SocketId, chatId: ChatId)
    | OnDisconnect(socket: SocketId, now: Time)

  /** Events the server sends. */
  datatype Outbound =
    | OnlineUsers(statuses: Statuses)
    | UserStatusUpdate(userId: UserId, status: Status, lastSeen: Option<Time>)
    | MessageReceived(message: Message)
    | TypingNotice(chatId: ChatId)
    | StopTypingNotice(chatId: ChatId)
    | MessageRead(messageId: string, readerId: UserId)
    | ChatUpdated(chat: Chat)
    | ChatDeleted(deletedId: ChatId)

  /** Who an emit is addressed to, named after the Socket.IO call that sends it. */
  datatype Target =
    | ToSocket(socket: SocketId)              // socket.emit
    | AllExcept(socket: SocketId)             // socket.broadcast.emit
    | ToRoom(room: RoomName, from: SocketId)  // socket.to(room).emit / socket.in(room).emit
    | ToAll                                   // io.emit

  datatype Emit = Emit(target: Target, event: Outbound)

  /** A `User.findByIdAndUpdate` call; advisory, its outcome never feeds back into the registry. */
  datatype StatusWrite = StatusWrite(userId: UserId, status: Status, lastSeen: Option<Time>)

  datatype Step = Step(server: Server, outbox: seq<Emit>, writes: seq<StatusWrite>, closeSocket: bool)

  /** Presence events, the only ones the client's socket context reacts to. */
  predicate IsPresence(e: Outbound)
  {
    e.OnlineUsers? || e.UserStatusUpdate?
  }

  /** The setup guard: the payload is present and carries a user id that is not the falsy empty string. */
  predicate ValidSetup(d: Option<UserData>)
  {
    d.Some? && d.value.id.Some? && d.value.id.value != ""
  }

  /** Handling `ev` puts socket `s` into `room`: an explicit join, or a setup's own user room. */
  predicate Subscribes(ev: Inbound, s: SocketId, room: RoomName)
  {
    || (ev.OnJoinChat? && ev.socket == s && ev.chatId == room)
    || (ev.OnSetup? && ev.socket == s && ValidSetup(ev.userData) && ev.userData.value.id.value == room)
  }

  /** `socket.on('setup')`. */
  function Setup(st: Server, s: SocketId, d: Option<UserData>): (r: Step)
    requires Invariant(st)
    ensures Invariant(r.server)
    ensures !ValidSetup(d) ==> r == Step(st, [], [], true)
    ensures ValidSetup(d) ==>
      var u := d.value.id.value;
      && !r.closeSocket
      && u in r.server.registry.entries && r.server.registry.entries[u] == Entry(s, Online, None)
      && AgreeExcept(st.registry.entries, r.server.registry.entries, u)
      && RoomMembers(r.server.rooms, u) == RoomMembers(st.rooms, u) + {s}
      && (forall room :: room != u ==> RoomMembers(r.server.rooms, room) == RoomMembers(st.rooms, room))
      && |r.outbox| == 2
      && r.outbox[0].target == ToSocket(s) && r.outbox[0].event.OnlineUsers?
      && r.outbox[0].event.statuses.Keys == r.server.registry.entries.Keys
      && r.outbox[0].event.statuses[u] == StatusInfo(Online, None)
      && r.outbox[1] == Emit(AllExcept(s), UserStatusUpdate(u, Online, None))
      && r.outbox[0] == Emit(ToSocket(s), OnlineUsers(Snapshot(r.server.registry)))
      && r.writes == [StatusWrite(u, Online, None)]
    ensures ValidSetup(d) && d.value.id.value in st.registry.entries ==>
              r.server.registry.order == st.registry.order
    ensures ValidSetup(d) && d.value.id.value !in st.registry.entries ==>
              r.server.registry.order == st.registry.order + [d.value.id.value]
  {
    if ValidSetup(d) then
      var u := d.value.id.value;
      var reg := Register(st.registry, u, s);
      var rooms := Join(st.rooms, u, s);
      Step(Server(reg, rooms),
           [Emit(ToSocket(s), OnlineUsers(Snapshot(reg))), Emit(AllExcept(s), UserStatusUpdate(u, Online, None))],
           [StatusWrite(u, Online, None)],
           false)
    else
      Step(st, [], [], true)
  }

  /** How many members of `members` have an id other than `skip` (each occurrence counted). */
  function RecipientCount(members: seq<Member>, skip: Option<UserId>): nat
  {
    Seqs.CountWhere(members, (m: Member) => Some(m.id) != skip)
  }

  /** How many emits of `out` are addressed to room `room`. */
  function EmitsTo(out: seq<Emit>, room: RoomName): nat
  {
    if |out| == 0 then 0
    else (if out[0].target.ToRoom? && out[0].target.room == room then 1 else 0) + EmitsTo(out[1..], room)
  }

  /** How many times `id` occurs among the members' ids. */
  function Occurrences(members: seq<Member>, id: UserId): nat
  {
    if |members| == 0 then 0 else (if members[0].id == id then 1 else 0) + Occurrences(members[1..], id)
  }

  /** One `socket.to(member._id)` emit per member, in order, skipping members whose id is `skip`. */
  function FanOut(members: seq<Member>, skip: Option<UserId>, from: SocketId, event: Outbound): (out: seq<Emit>)
    ensures |out| == RecipientCount(members, skip) <= |members|
    ensures skip.None? ==> |out| == |members|
    ensures forall room :: EmitsTo(out, room) == if Some(room) == skip then 0 else Occurrences(members, room)
    ensures forall e :: e in out ==> e.event == event && e.target.ToRoom? && e.target.from == from
                                     && e.target.room in MemberIds(members) && Some(e.target.room) != skip
    ensures forall m :: m in members && Some(m.id) != skip ==> Emit(ToRoom(m.id, from), event) in out
  {
    if |members| == 0 then []
    else
      assert members == [members[0]] + members[1..];
      var rest := FanOut(members[1..], skip, from, event);
      if Some(members[0].id) != skip then
        var out := [Emit(ToRoom(members[0].id, from), event)] + rest;
        assert out[1..] == rest;
        out
      else
        rest
  }

  /** `socket.on('new message')`: the message goes to every member's user room except the sender's. */
  function NewMessage(st: Server, s: SocketId, msg: Message): (r: Step)
    ensures r.server == st && r.writes == [] && !r.closeSocket
    ensures msg.chatUsers.None? ==> r.outbox == []
    ensures msg.chatUsers.Some? ==>
      && (forall e :: e in r.outbox ==> e.event == MessageReceived(msg) && e.target.ToRoom?
                                        && e.target.room != msg.senderId
                                        && e.target.room in MemberIds(msg.chatUsers.value))
      && (forall m :: m in msg.chatUsers.value && m.id != msg.senderId ==>
                        Emit(ToRoom(m.id, s), MessageReceived(msg)) in r.outbox)
      && |r.outbox| == RecipientCount(msg.chatUsers.value, Some(msg.senderId))
      && (forall room :: EmitsTo(r.outbox, room) == if room == msg.senderId then 0 else Occurrences(msg.chatUsers.value, room))
  {
    match msg.chatUsers
    case None => Step(st, [], [], false)
    case Some(users) => Step(st, FanOut(users, Some(msg.senderId), s, MessageReceived(msg)), [], false)
  }

  /** `socket.on('chat updated')`: one emit per member's user room, the sender's own included. */
  function ChatUpdatedStep(st: Server, s: SocketId, chat: Chat): (r: Step)
    ensures r.server == st && r.writes == [] && !r.closeSocket
    ensures forall e :: e in r.outbox ==>
              e.event == ChatUpdated(chat) && e.target.ToRoom? && e.target.room in MemberIds(chat.users)
    ensures forall m :: m in chat.users ==> Emit(ToRoom(m.id, s), ChatUpdated(chat)) in r.outbox
    ensures |r.outbox| == |chat.users|
    ensures forall room :: EmitsTo(r.outbox, room) == Occurrences(chat.users, room)
  {
    Step(st, FanOut(chat.users, None, s, ChatUpdated(chat)), [], false)
  }

  /** `socket.on('disconnect')`: the first entry holding the socket goes offline at `now`. */
  function Disconnect(st: Server, s: SocketId, now: Time): (r: Step)
    requires Invariant(st)
    ensures Invariant(r.server)
    ensures r.server.rooms == st.rooms && !r.closeSocket
    ensures r.server.registry.order == st.registry.order
    ensures r.server.registry.entries.Keys == st.registry.entries.Keys
    ensures forall v :: v in st.registry.entries && st.registry.entries[v].socketId != s ==>
                          r.server.registry.entries[v] == st.registry.entries[v]
    ensures (forall v :: v in st.registry.entries ==> st.registry.entries[v].socketId != s) ==>
              r == Step(st, [], [], false)
    ensures Owner(st.registry, s).Some? ==>
      var u := Owner(st.registry, s).value;
      && r.server.registry.entries[u] == Entry(s, Offline, Some(now))
      && AgreeExcept(st.registry.entries, r.server.registry.entries, u)
      && r.outbox == [Emit(AllExcept(s), UserStatusUpdate(u, Offline, Some(now)))]
      && r.writes == [StatusWrite(u, Offline, Some(now))]
  {
    var owner := Owner(st.registry, s);
    // The truthiness guard on the found id: a found key is never the falsy "", as `Valid` keeps it out.
    if owner.Some? && owner.value != "" then
      var u := owner.value;
      Step(Server(MarkOffline(st.registry, u, now), st.rooms),
           [Emit(AllExcept(s), UserStatusUpdate(u, Offline, Some(now)))],
           [StatusWrite(u, Offline, Some(now))],
           false)
    else
      Step(st, [], [], false)
  }

  /** The dispatcher: `socket.on(event, handler)` for every event the server listens to. */
  function Handle(st: Server, ev: Inbound): (r: Step)
    requires Invariant(st)
    ensures Invariant(r.server)
    ensures r.closeSocket <==> ev.OnSetup? && !ValidSetup(ev.userData)
    ensures !(ev.OnSetup? || ev.OnDisconnect?) ==> r.server.registry == st.registry && r.writes == []
    ensures forall room, x :: x in RoomMembers(r.server.rooms, room) <==>
                                x in RoomMembers(st.rooms, room) || Subscribes(ev, x, room)
    ensures forall e :: e in r.outbox && IsPresence(e.event) ==>
              (ev.OnSetup? || ev.OnDisconnect?) && (e.target.ToSocket? || e.target.AllExcept?)
              && e.target.socket == ev.socket
    ensures ev.OnSetup? && ValidSetup(ev.userData) && ev.userData.value.id.value in st.registry.entries ==>
              r.server.registry.order == st.registry.order
    ensures ev.OnSetup? && ValidSetup(ev.userData) && ev.userData.value.id.value !in st.registry.entries ==>
              r.server.registry.order == st.registry.order + [ev.userData.value.id.value]
    ensures ev.OnJoinChat? ==> r.server.registry == st.registry && r.outbox == []
    ensures ev.OnTyping? ==> r.server == st && r.outbox == [Emit(ToRoom(ev.chatId, ev.socket), TypingNotice(ev.chatId))]
    ensures ev.OnStopTyping? ==>
              r.server == st && r.outbox == [Emit(ToRoom(ev.chatId, ev.socket), StopTypingNotice(ev.chatId))]
    ensures ev.OnMessageRead? ==>
              r.server == st && r.outbox == [Emit(ToRoom(ev.chatId, ev.socket), MessageRead(ev.messageId, ev.userId))]
    ensures ev.OnChatDeleted? ==> r.server == st && r.outbox == [Emit(ToAll, ChatDeleted(ev.chatId))]
  {
    match ev
    case OnSetup(s, d) => Setup(st, s, d)
    case OnJoinChat(s, c) => Step(Server(st.registry, Join(st.rooms, c, s)), [], [], false)
    case OnNewMessage(s, msg) => NewMessage(st, s, msg)
    case OnTyping(s, c) => Step(st, [Emit(ToRoom(c, s), TypingNotice(c))], [], false)
    case OnStopTyping(s, c) => Step(st, [Emit(ToRoom(c, s), StopTypingNotice(c))], [], false)
    case OnMessageRead(s, messageId, userId, c) =>
      Step(st, [Emit(ToRoom(c, s), MessageRead(messageId, userId))], [], false)
    case OnChatUpdated(s, chat) => ChatUpdatedStep(st, s, chat)
    case OnChatDeleted(s, c) => Step(st, [Emit(ToAll, ChatDeleted(c))], [], false)
    case OnDisconnect(s, now) => Disconnect(st, s, now)
  }
}

=== FILE: seqs.dfy ===
/**
 Sequence helpers shared by the client pages: `Array.prototype.filter` and
 `Array.prototype.some`, with the facts the pages rely on.
 */
module Seqs {

  /** `a` is obtained from `b` by deleting elements, keeping the order of the rest. */
  ghost predicate SubsequenceOf<T>(a: seq<T>, b: seq<T>)
    decreases |b|
  {
    |a| == 0 || (|b| > 0 && ((a[0] == b[0] && SubsequenceOf(a[1..], b[1..])) || SubsequenceOf(a, b[1..])))
  }

  /** Number of elements of `s` that satisfy `keep`. */
  function CountWhere<T>(s: seq<T>, keep: T -> bool): nat
  {
    if |s| == 0 then 0 else (if keep(s[0]) then 1 else 0) + CountWhere(s[1..], keep)
  }

  /** `s.filter(keep)`: the elements satisfying `keep`, each kept once per occurrence, in order. */
  function Filter<T>(s: seq<T>, keep: T -> bool): (r: seq<T>)
    ensures forall i :: 0 <= i < |r| ==> r[i] in s && keep(r[i])
    ensures forall i :: 0 <= i < |s| && keep(s[i]) ==> s[i] in r
    ensures |r| == CountWhere(s, keep)
    ensures SubsequenceOf(r, s)
  {
    if |s| == 0 then []
    else
      assert s == [s[0]] + s[1..];
      if keep(s[0]) then [s[0]] + Filter(s[1..], keep) else Filter(s[1..], keep)
  }

  /** When every element is kept, filtering is the identity. */
  lemma {:induction false} FilterKeepsAll<T>(s: seq<T>, keep: T -> bool)
    requires forall i :: 0 <= i < |s| ==> keep(s[i])
    ensures Filter(s, keep) == s
  {
    if |s| > 0 {
      assert s == [s[0]] + s[1..];
      FilterKeepsAll(s[1..], keep);
    }
  }

  /** `s.some(p)`. */
  function Any<T>(s: seq<T>, p: T -> bool): (b: bool)
    ensures b <==> exists i :: 0 <= i < |s| && p(s[i])
  {
    if |s| == 0 then false
    else p(s[0]) || (assert forall i :: 0 < i < |s| ==> s[i] == s[1..][i - 1]; Any(s[1..], p))
  }
}

=== FILE: socket_client.dfy ===
/**
 The client's socket context: the connection owned by the logged-in user, the
 `onlineUsers` presence map fed by the server's presence events, and the
 typing-indicator debounce timers.
 */
module SocketClient {
  import opened Wrappers
  import opened Presence

  /** The logged-in user object from the auth context. */
  datatype User = User(id: UserId, name: string)

  /** Connections the client opened, numbered in order of creation. */
  type SocketRef = nat

  /** A pending `setTimeout` callback: its handle, its chat, and the socket it captured. */
  datatype Timer = Timer(handle: nat, chatId: ChatId, socket: SocketRef)

  /**
   `typingTimers` is the ref object of chat id to timeout handle; `pending` is the
   browser's set of scheduled callbacks; `nextHandle` the next handle it hands out.
   */
  datatype Client = Client(
    user: Option<User>,
    socket: Option<SocketRef>,
    socketsOpened: nat,
    onlineUsers: Statuses,
    typingTimers: map<ChatId, nat>,
    pending: set<Timer>,
    nextHandle: nat)

  /** Events the client sends to the server. */
  datatype ClientEmit = EmitSetup(user: User) | EmitTyping(chatId: ChatId) | EmitStopTyping(chatId: ChatId)

  datatype Sent = Sent(socket: SocketRef, emit: ClientEmit)

  /** A client transition: the new state, what it sent, and which sockets it disconnected. */
  datatype ClientStep = ClientStep(client: Client, sent: seq<Sent>, closed: seq<SocketRef>)

  /** Before any user: no socket, empty presence, no timers; browsers hand out handles from 1. */
  const Start: Client := Client(None, None, 0, map[], map[], {}, 1)

  lemma StartIsWellFormed()
    ensures TimersWellFormed(Start) && SocketsWellFormed(Start)
  {
  }

  /** The current socket, if any, is one already handed out: references count up from 0. */
  ghost predicate SocketsWellFormed(c: Client)
  {
    c.socket.Some? ==> c.socket.value < c.socketsOpened
  }

  /** The pending timers for chat `chatId`. */
  function PendingFor(c: Client, chatId: ChatId): set<Timer>
  {
    set t | t in c.pending && t.chatId == chatId
  }

  /**
   Every pending timer is the one recorded for its chat, handles identify timers,
   recorded handles are distinct, and every handle is positive (truthy) and
   already handed out.
   */
  ghost predicate TimersWellFormed(c: Client)
  {
    && (forall t :: t in c.pending ==> t.chatId in c.typingTimers && c.typingTimers[t.chatId] == t.handle)
    && (forall t1, t2 :: t1 in c.pending && t2 in c.pending && t1.handle == t2.handle ==> t1 == t2)
    && (forall t :: t in c.pending ==> 0 < t.handle < c.nextHandle)
    && (forall a, b :: a in c.typingTimers && b in c.typingTimers && a != b ==> c.typingTimers[a] != c.typingTimers[b])
    && (forall a :: a in c.typingTimers ==> c.typingTimers[a] < c.nextHandle)
    && c.nextHandle > 0
  }

  /** At most one timer is pending per chat. */
  lemma OneTimerPerChat(c: Client, chatId: ChatId)
    requires TimersWellFormed(c)
    ensures |PendingFor(c, chatId)| <= 1
  {
    if PendingFor(c, chatId) != {} {
      var t :| t in PendingFor(c, chatId);
      assert PendingFor(c, chatId) == {t};
    }
  }

  /**
   The `[user]` effect. A new user gets a new socket (the previous one is
   disconnected by the effect's cleanup); logging out with a socket drops it and
   empties `onlineUsers`.
   */
  function UserChanged(c: Client, u: Option<User>): (r: ClientStep)
    ensures r.client.user == u && r.client.pending == c.pending && r.client.typingTimers == c.typingTimers
    ensures r.client.nextHandle == c.nextHandle
    ensures TimersWellFormed(c) ==> TimersWellFormed(r.client)
    ensures r.client.socketsOpened == c.socketsOpened + (if u.Some? then 1 else 0)
    ensures SocketsWellFormed(c) ==> SocketsWellFormed(r.client)
    ensures SocketsWellFormed(c) ==> forall g :: g in r.closed ==> r.client.socket != Some(g)
    ensures r.sent == []
    ensures r.closed == (if c.socket.Some? then [c.socket.value] else [])
    ensures u.Some? ==> r.client.socket == Some(c.socketsOpened) && r.client.onlineUsers == c.onlineUsers
    ensures u.None? ==> r.client.socket.None?
    ensures u.None? && c.socket.Some? ==> r.client.onlineUsers == map[]
    ensures u.None? && c.socket.None? ==> r.client == c.(user := None)
  {
    var closed := if c.socket.Some? then [c.socket.value] else [];
    if u.Some? then
      ClientStep(c.(user := u, socket := Some(c.socketsOpened), socketsOpened := c.socketsOpened + 1), [], closed)
    else if c.socket.Some? then
      ClientStep(c.(user := u, socket := None, onlineUsers := map[]), [], closed)
    else
      ClientStep(c.(user := u), [], [])
  }

  /** The `connect` listener of socket `g`: announce the current user with `setup`. */
  function Connected(c: Client, g: SocketRef): (r: ClientStep)
    ensures r.client == c && r.closed == []
    ensures c.socket == Some(g) && c.user.Some? ==> r.sent == [Sent(g, EmitSetup(c.user.value))]
    ensures c.socket != Some(g) || c.user.None? ==> r.sent == []
  {
    if c.socket == Some(g) && c.user.Some? then ClientStep(c, [Sent(g, EmitSetup(c.user.value))], [])
    else ClientStep(c, [], [])
  }

  /** The `user status update` listener: merge one user's status into `onlineUsers`. */
  function StatusUpdate(c: Client, userId: UserId, status: Status, lastSeen: Option<Time>): (c': Client)
    ensures c'.onlineUsers.Keys == c.onlineUsers.Keys + {userId}
    ensures c'.onlineUsers[userId] == StatusInfo(status, lastSeen)
    ensures forall v :: v in c.onlineUsers && v != userId ==> c'.onlineUsers[v] == c.onlineUsers[v]
    ensures c' == c.(onlineUsers := c'.onlineUsers)
  {
    c.(onlineUsers := c.onlineUsers[userId := StatusInfo(status, lastSeen)])
  }

  /** The `online users` listener: the snapshot replaces `onlineUsers` outright. */
  function OnlineUsersReceived(c: Client, all: Statuses): (c': Client)
    ensures c'.onlineUsers == all
    ensures c' == c.(onlineUsers := c'.onlineUsers)
  {
    c.(onlineUsers := all)
  }

  /** `clearTimeout(typingTimers[chatId]); delete typingTimers[chatId]`, when a timer is recorded. */
  function CancelTimer(c: Client, chatId: ChatId): (c': Client)
    requires TimersWellFormed(c)
    ensures TimersWellFormed(c')
    ensures PendingFor(c', chatId) == {} && chatId !in c'.typingTimers
    ensures forall t: Timer :: t.chatId != chatId ==> (t in c'.pending <==> t in c.pending)
    ensures c'.typingTimers == c.typingTimers - {chatId}
    ensures c' == c.(pending := c'.pending, typingTimers := c'.typingTimers)
  {
    if chatId in c.typingTimers then
      var h := c.typingTimers[chatId];
      var live := set t | t in c.pending && t.handle != h;
      c.(pending := live, typingTimers := c.typingTimers - {chatId})
    else
      c
  }

  /**
   `sendTypingEvent(chatId, isTyping)`. Typing emits `typing` and (re)arms the one
   timer of the chat; not typing cancels the timer and always emits `stop typing`.
   Without a socket nothing happens.
   */
  function SendTyping(c: Client, chatId: ChatId, isTyping: bool): (r: ClientStep)
    requires TimersWellFormed(c)
    ensures TimersWellFormed(r.client)
    ensures c.socket.None? ==> r == ClientStep(c, [], [])
    ensures c.socket.Some? && isTyping ==>
      && r.sent == [Sent(c.socket.value, EmitTyping(chatId))]
      && PendingFor(r.client, chatId) == {Timer(c.nextHandle, chatId, c.socket.value)}
    ensures c.socket.Some? && !isTyping ==>
      && r.sent == [Sent(c.socket.value, EmitStopTyping(chatId))]
      && PendingFor(r.client, chatId) == {} && chatId !in r.client.typingTimers
    ensures forall t: Timer :: t.chatId != chatId ==> (t in r.client.pending <==> t in c.pending)
    ensures forall ch :: ch != chatId ==> (ch in r.client.typingTimers <==> ch in c.typingTimers)
    ensures forall ch :: ch != chatId && ch in c.typingTimers ==> r.client.typingTimers[ch] == c.typingTimers[ch]
    ensures r.closed == [] && r.client.user == c.user && r.client.socket == c.socket
    ensures r.client.socketsOpened == c.socketsOpened
    ensures r.client.onlineUsers == c.onlineUsers
  {
    if c.socket.None? then ClientStep(c, [], [])
    else
      var g := c.socket.value;
      var k := CancelTimer(c, chatId);
      if isTyping then
        var t := Timer(c.nextHandle, chatId, g);
        var c' := k.(typingTimers := k.typingTimers[chatId := t.handle], pending := k.pending + {t},
                     nextHandle := c.nextHandle + 1);
        assert PendingFor(c', chatId) == {t};
        ClientStep(c', [Sent(g, EmitTyping(chatId))], [])
      else
        ClientStep(k, [Sent(g, EmitStopTyping(chatId))], [])
  }

  /** A timer callback runs: `stop typing` on the captured socket, and the chat's entry is deleted. */
  function TimerFired(c: Client, t: Timer): (r: ClientStep)
    requires TimersWellFormed(c)
    ensures TimersWellFormed(r.client)
    ensures t !in c.pending ==> r == ClientStep(c, [], [])
    ensures t in c.pending ==>
      && r.sent == [Sent(t.socket, EmitStopTyping(t.chatId))]
      && PendingFor(r.client, t.chatId) == {} && t.chatId !in r.client.typingTimers
    ensures forall x: Timer :: x.chatId != t.chatId ==> (x in r.client.pending <==> x in c.pending)
    ensures forall ch :: ch != t.chatId ==> (ch in r.client.typingTimers <==> ch in c.typingTimers)
    ensures forall ch :: ch != t.chatId && ch in c.typingTimers ==> r.client.typingTimers[ch] == c.typingTimers[ch]
    ensures r.closed == [] && r.client.onlineUsers == c.onlineUsers
    ensures r.client.user == c.user && r.client.socket == c.socket && r.client.socketsOpened == c.socketsOpened
  {
    if t !in c.pending then ClientStep(c, [], [])
    else
      var c' := c.(typingTimers := c.typingTimers - {t.chatId}, pending := c.pending - {t});
      ClientStep(c', [Sent(t.socket, EmitStopTyping(t.chatId))], [])
  }

  /**
   Typing twice in a chat leaves only the second timer pending: the first one can
   never fire.
   */
  lemma RetypingReplacesTimer(c: Client, chatId: ChatId)
    requires TimersWellFormed(c) && c.socket.Some?
    ensures var c1 := SendTyping(c, chatId, true).client;
            var c2 := SendTyping(c1, chatId, true).client;
            && PendingFor(c2, chatId) == {Timer(c.nextHandle + 1, chatId, c.socket.value)}
            && Timer(c.nextHandle, chatId, c.socket.value) !in c2.pending
  {
  }

  /**
   A socket dropped on a user change never announces itself again: its late
   `connect` finds it is no longer the current socket and sends nothing.
   */
  lemma DroppedSocketStaysSilent(c: Client, u: Option<User>, g: SocketRef)
    requires SocketsWellFormed(c)
    requires g in UserChanged(c, u).closed
    ensures Connected(UserChanged(c, u).client, g).sent == []
  {
  }
}

=== FILE: sync.dfy ===
/**
 Server and client together: the presence events the server emits keep every
 connected client's `onlineUsers` equal to the server's registry snapshot, and so
 the contacts page shows the server's view.
 */
module Sync {
  import opened Wrappers
  import opened Presence
  import opened Connections
  import opened Relay
  import opened Traces
  import opened SocketClient
  import Contacts

  /** The client's listeners: presence events update `onlineUsers`, other events leave the socket context alone. */
  function Receive(c: Client, e: Outbound): (r: Client)
    ensures r == c.(onlineUsers := r.onlineUsers)
    ensures !IsPresence(e) ==> r == c
    ensures e.OnlineUsers? ==> r.onlineUsers == e.statuses
    ensures e.UserStatusUpdate? ==> r.onlineUsers == c.onlineUsers[e.userId := StatusInfo(e.status, e.lastSeen)]
  {
    match e
    case OnlineUsers(all) => OnlineUsersReceived(c, all)
    case UserStatusUpdate(u, status, lastSeen) => StatusUpdate(c, u, status, lastSeen)
    case _ => c
  }

  /** The client on socket `sc` receives, in order, the emits of one step that reach it. */
  function ReceiveAll(c: Client, out: seq<Emit>, sc: SocketId, rooms: Rooms): Client
    decreases |out|
  {
    if |out| == 0 then c
    else ReceiveAll(if Reaches(out[0].target, sc, rooms) then Receive(c, out[0].event) else c, out[1..], sc, rooms)
  }

  /** The client on socket `sc`, starting from `c`, after the server has handled `evs` from start-up. */
  function ViewAfter(c: Client, evs: seq<Inbound>, sc: SocketId): Client
    decreases |evs|
  {
    if |evs| == 0 then c
    else
      var step := LastStep(evs);
      ReceiveAll(ViewAfter(c, evs[..|evs| - 1], sc), step.outbox, sc, step.server.rooms)
  }

  lemma {:induction false} NonPresenceLeavesView(c: Client, out: seq<Emit>, sc: SocketId, rooms: Rooms)
    requires forall e :: e in out ==> !IsPresence(e.event)
    ensures ReceiveAll(c, out, sc, rooms).onlineUsers == c.onlineUsers
    decreases |out|
  {
    if |out| > 0 {
      assert out[0] in out;
      var c' := if Reaches(out[0].target, sc, rooms) then Receive(c, out[0].event) else c;
      assert c'.onlineUsers == c.onlineUsers;
      NonPresenceLeavesView(c', out[1..], sc, rooms);
    }
  }

  /** Merging a registry change of one user's entry into the snapshot gives the new snapshot. */
  lemma SnapshotAfterChange(before: Registry, after: Registry, u: UserId)
    requires AgreeExcept(before.entries, after.entries, u) && u in after.entries
    ensures Snapshot(before)[u := StatusInfo(after.entries[u].status, after.entries[u].lastSeen)] == Snapshot(after)
  {
    var a := Snapshot(before)[u := StatusInfo(after.entries[u].status, after.entries[u].lastSeen)];
    var b := Snapshot(after);
    assert a.Keys == b.Keys;
    assert forall v :: v in a ==> a[v] == b[v];
  }

  /**
   A step caused by another connection keeps an in-sync client in sync: the
   presence deltas it broadcasts are exactly the registry changes it makes.
   */
  lemma ForeignStepKeepsView(st: Server, ev: Inbound, c: Client, sc: SocketId)
    requires Invariant(st)
    requires ev.socket != sc
    requires c.onlineUsers == Snapshot(st.registry)
    ensures var step := Handle(st, ev);
            ReceiveAll(c, step.outbox, sc, step.server.rooms).onlineUsers == Snapshot(step.server.registry)
  {
    var step := Handle(st, ev);
    var rooms := step.server.rooms;
    match ev
    case OnSetup(s, d) =>
      if ValidSetup(d) {
        var u := d.value.id.value;
        var c1 := StatusUpdate(c, u, Online, None);
        assert ReceiveAll(c, step.outbox, sc, rooms) == ReceiveAll(c, step.outbox[1..], sc, rooms);
        assert ReceiveAll(c, step.outbox[1..], sc, rooms) == ReceiveAll(c1, [], sc, rooms);
        SnapshotAfterChange(st.registry, step.server.registry, u);
      }
    case OnDisconnect(s, now) =>
      var owner := Owner(st.registry, s);
      if owner.Some? {
        var u := owner.value;
        var c1 := StatusUpdate(c, u, Offline, Some(now));
        assert ReceiveAll(c, step.outbox, sc, rooms) == ReceiveAll(c1, [], sc, rooms);
        SnapshotAfterChange(st.registry, step.server.registry, u);
      }
    case _ =>
      NonPresenceLeavesView(c, step.outbox, sc, rooms);
  }

  /** The connection's own `setup` hands it the registry snapshot, its own delta going to the others only. */
  lemma OwnSetupLoadsSnapshot(st: Server, sc: SocketId, d: Option<UserData>, c: Client)
    requires Invariant(st) && ValidSetup(d)
    ensures var step := Handle(st, OnSetup(sc, d));
            ReceiveAll(c, step.outbox, sc, step.server.rooms).onlineUsers == Snapshot(step.server.registry)
  {
    var step := Handle(st, OnSetup(sc, d));
    var rooms := step.server.rooms;
    var c1 := OnlineUsersReceived(c, Snapshot(step.server.registry));
    assert ReceiveAll(c, step.outbox, sc, rooms) == ReceiveAll(c1, step.outbox[1..], sc, rooms);
    assert ReceiveAll(c1, step.outbox[1..], sc, rooms) == ReceiveAll(c1, [], sc, rooms);
  }

  /**
   The connection's own events keep it in sync too: a repeated `setup` reloads the
   snapshot, a rejected one changes nothing, and its chat traffic carries no presence.
   Only its own `disconnect` is excluded, since that closes the connection.
   */
  lemma OwnStepKeepsView(st: Server, ev: Inbound, c: Client, sc: SocketId)
    requires Invariant(st)
    requires ev.socket == sc && !ev.OnDisconnect?
    requires c.onlineUsers == Snapshot(st.registry)
    ensures var step := Handle(st, ev);
            ReceiveAll(c, step.outbox, sc, step.server.rooms).onlineUsers == Snapshot(step.server.registry)
  {
    var step := Handle(st, ev);
    if ev.OnSetup? {
      if ValidSetup(ev.userData) {
        OwnSetupLoadsSnapshot(st, sc, ev.userData, c);
      }
    } else {
      NonPresenceLeavesView(c, step.outbox, sc, step.server.rooms);
    }
  }

  /** One more handled event: the view is the previous view after receiving the new step's emits. */
  lemma ViewAfterLast(c: Client, evs: seq<Inbound>, sc: SocketId)
    requires |evs| > 0
    ensures var step := Handle(Run(evs[..|evs| - 1]), evs[|evs| - 1]);
            ViewAfter(c, evs, sc) == ReceiveAll(ViewAfter(c, evs[..|evs| - 1], sc), step.outbox, sc, step.server.rooms)
            && Run(evs) == step.server
  {
  }

  /**
   After a connection's successful `setup`, and any number of later events from any
   connection short of its own `disconnect`, its `onlineUsers` equals the server's
   registry snapshot.
   */
  lemma {:induction false} ViewConvergesAfterSetup(c: Client, pre: seq<Inbound>, sc: SocketId, d: Option<UserData>,
                                                   post: seq<Inbound>)
    requires ValidSetup(d)
    requires forall i :: 0 <= i < |post| ==> !(post[i].OnDisconnect? && post[i].socket == sc)
    ensures ViewAfter(c, pre + [OnSetup(sc, d)] + post, sc).onlineUsers
            == Snapshot(Run(pre + [OnSetup(sc, d)] + post).registry)
    decreases |post|
  {
    var evs := pre + [OnSetup(sc, d)] + post;
    var prev := evs[..|evs| - 1];
    ViewAfterLast(c, evs, sc);
    if |post| == 0 {
      assert prev == pre;
      assert evs[|evs| - 1] == OnSetup(sc, d);
      OwnSetupLoadsSnapshot(Run(pre), sc, d, ViewAfter(c, pre, sc));
    } else {
      var shorter := post[..|post| - 1];
      ViewConvergesAfterSetup(c, pre, sc, d, shorter);
      assert prev == pre + [OnSetup(sc, d)] + shorter;
      assert evs[|evs| - 1] == post[|post| - 1];
      if post[|post| - 1].socket == sc {
        OwnStepKeepsView(Run(prev), evs[|evs| - 1], ViewAfter(c, prev, sc), sc);
      } else {
        ForeignStepKeepsView(Run(prev), evs[|evs| - 1], ViewAfter(c, prev, sc), sc);
      }
    }
  }

  /**
   Consequently the contacts page of that connection shows a user online exactly
   when the server's registry has them online.
   */
  lemma ContactsShowRegistryPresence(c: Client, pre: seq<Inbound>, sc: SocketId, d: Option<UserData>,
                                     post: seq<Inbound>, id: UserId, now: Time)
    requires ValidSetup(d)
    requires forall i :: 0 <= i < |post| ==> !(post[i].OnDisconnect? && post[i].socket == sc)
    ensures var evs := pre + [OnSetup(sc, d)] + post;
            var reg := Run(evs).registry;
            Contacts.GetOnlineStatus(ViewAfter(c, evs, sc).onlineUsers, id, now).indicator == Contacts.Online
            <==> id in reg.entries && reg.entries[id].status == Online
  {
    ViewConvergesAfterSetup(c, pre, sc, d, post);
  }

  /** Logging out with a socket empties `onlineUsers`, so the contacts page shows everyone offline. */
  lemma LogoutShowsEveryoneOffline(c: Client, id: UserId, now: Time)
    requires c.socket.Some?
    ensures Contacts.GetOnlineStatus(UserChanged(c, None).client.onlineUsers, id, now).indicator == Contacts.Offline
  {
  }

  /** A client event as the server receives it on connection `s`. */
  function AsInbound(e: ClientEmit, s: SocketId): Inbound
  {
    match e
    case EmitSetup(u) => OnSetup(s, Some(UserData(Some(u.id), u.name)))
    case EmitTyping(chatId) => OnTyping(s, chatId)
    case EmitStopTyping(chatId) => OnStopTyping(s, chatId)
  }

  /**
   The `setup` the `connect` listener sends is accepted by the server exactly when
   the logged-in user's id is not empty, and then registers that user online on the
   connection it arrived on.
   */
  lemma ConnectedSetupAccepted(c: Client, g: SocketRef, st: Server, s: SocketId)
    requires Invariant(st)
    requires c.socket == Some(g) && c.user.Some?
    ensures |Connected(c, g).sent| == 1
    ensures var r := Handle(st, AsInbound(Connected(c, g).sent[0].emit, s));
            var u := c.user.value.id;
            && (r.closeSocket <==> u == "")
            && (u != "" ==> u in r.server.registry.entries && r.server.registry.entries[u] == Entry(s, Online, None))
  {
  }
}

=== FILE: text.dfy ===
/**
 The string operations the client pages use: `toLowerCase` (restricted to
 ASCII letters), `includes`, and `trim`.
 */
module Text {

  /** ASCII case folding of one character; every other character is left alone. */
  function LowerChar(c: char): char
  {
    if 'A' <= c <= 'Z' then (c as int + 32) as char else c
  }

  /** `s.toLowerCase()` over ASCII letters: same length, each character folded. */
  function Lower(s: string): (r: string)
    ensures |r| == |s|
    ensures forall i :: 0 <= i < |s| ==> r[i] == LowerChar(s[i])
  {
    seq(|s|, i requires 0 <= i < |s| => LowerChar(s[i]))
  }

  /** `needle` occurs in `hay` starting at index `i`. */
  predicate OccursAt(hay: string, needle: string, i: int)
  {
    0 <= i && i + |needle| <= |hay| && hay[i..i + |needle|] == needle
  }

  /**
   `hay.includes(needle)`: try every start position from the left. It holds
   exactly when the needle occurs at some position.
   */
  function Includes(hay: string, needle: string): (b: bool)
    ensures b <==> exists i :: OccursAt(hay, needle, i)
    decreases |hay|
  {
    if |needle| <= |hay| && hay[..|needle|] == needle then
      assert OccursAt(hay, needle, 0);
      true
    else if |hay| == 0 then
      assert !OccursAt(hay, needle, 0);
      false
    else
      OccursInTail(hay, needle);
      Includes(hay[1..], needle)
  }

  /** When the needle is not a prefix, it occurs in `hay` iff it occurs in `hay`'s tail. */
  lemma OccursInTail(hay: string, needle: string)
    requires |hay| > 0 && !(|needle| <= |hay| && hay[..|needle|] == needle)
    ensures (exists i :: OccursAt(hay, needle, i)) <==> (exists j :: OccursAt(hay[1..], needle, j))
  {
    if exists j :: OccursAt(hay[1..], needle, j) {
      var j :| OccursAt(hay[1..], needle, j);
      assert hay[1..][j..j + |needle|] == hay[j + 1..j + 1 + |needle|];
      assert OccursAt(hay, needle, j + 1);
    }
    if exists i :: OccursAt(hay, needle, i) {
      var i :| OccursAt(hay, needle, i);
      assert i != 0;
      assert hay[1..][i - 1..i - 1 + |needle|] == hay[i..i + |needle|];
      assert OccursAt(hay[1..], needle, i - 1);
    }
  }

  /** The empty string occurs in every string, as `"".includes` promises. */
  lemma IncludesEmpty(hay: string)
    ensures Includes(hay, "")
  {
    assert hay[..0] == "";
  }

  /** ECMAScript WhiteSpace and LineTerminator code points, the set `String.prototype.trim` strips. */
  predicate IsJsSpace(c: char)
  {
    var n := c as int;
    n == 0x09 || n == 0x0A || n == 0x0B || n == 0x0C || n == 0x0D || n == 0x20
    || n == 0xA0 || n == 0x1680 || (0x2000 <= n <= 0x200A) || n == 0x2028 || n == 0x2029
    || n == 0x202F || n == 0x205F || n == 0x3000 || n == 0xFEFF
  }

  /** Every character of `s` is white space (vacuously so for the empty string). */
  predicate Blank(s: string)
  {
    forall i :: 0 <= i < |s| ==> IsJsSpace(s[i])
  }

  /** Drops leading white space; the result is a suffix of `s`. */
  function TrimStart(s: string): (r: string)
    ensures |r| <= |s| && r == s[|s| - |r|..]
    ensures |r| > 0 ==> !IsJsSpace(r[0])
  {
    if |s| > 0 && IsJsSpace(s[0]) then TrimStart(s[1..]) else s
  }

  /** Drops trailing white space; the result is a prefix of `s`. */
  function TrimEnd(s: string): (r: string)
    ensures |r| <= |s| && r == s[..|r|]
    ensures |r| > 0 ==> !IsJsSpace(r[|r| - 1])
  {
    if |s| > 0 && IsJsSpace(s[|s| - 1]) then TrimEnd(s[..|s| - 1]) else s
  }

  /**
   `s.trim()`: empty exactly for strings made only of white space (the empty
   string included), and otherwise neither starting nor ending with white space.
   */
  function Trim(s: string): (r: string)
    ensures r == [] <==> Blank(s)
    ensures |r| > 0 ==> !IsJsSpace(r[0]) && !IsJsSpace(r[|r| - 1])
    ensures |r| <= |s|
  {
    var t := TrimStart(s);
    TrimStartEmptyIffBlank(s);
    TrimEndEmptyIffBlank(t);
    if t != [] then
      assert !IsJsSpace(t[0]);
      assert !Blank(t);
      TrimEnd(t)
    else
      TrimEnd(t)
  }

  lemma {:induction false} TrimStartEmptyIffBlank(s: string)
    ensures TrimStart(s) == [] <==> Blank(s)
  {
    if |s| > 0 && IsJsSpace(s[0]) {
      TrimStartEmptyIffBlank(s[1..]);
      assert Blank(s) <==> Blank(s[1..]) by {
        if Blank(s[1..]) {
          forall i | 0 <= i < |s| ensures IsJsSpace(s[i]) {
            if i > 0 { assert s[i] == s[1..][i - 1]; }
          }
        }
      }
    }
  }

  lemma {:induction false} TrimEndEmptyIffBlank(s: string)
    ensures TrimEnd(s) == [] <==> Blank(s)
  {
    if |s| > 0 && IsJsSpace(s[|s| - 1]) {
      TrimEndEmptyIffBlank(s[..|s| - 1]);
      assert Blank(s) <==> Blank(s[..|s| - 1]) by {
        if Blank(s[..|s| - 1]) {
          forall i | 0 <= i < |s| ensures IsJsSpace(s[i]) {
            if i < |s| - 1 { assert s[i] == s[..|s| - 1][i]; }
          }
        }
      }
    }
  }

  /** Lower-casing twice is lower-casing once. */
  lemma LowerIdempotent(s: string)
    ensures Lower(Lower(s)) == Lower(s)
  {
  }
}

=== FILE: traces.dfy ===
/** Runs of the server over sequences of inbound events, and what they guarantee. */
module Traces {
  import opened Wrappers
  import opened Presence
  import opened Connections
  import opened Relay

  /** The server state after handling `evs` in order from start-up. */
  function Run(evs: seq<Inbound>): (st: Server)
    ensures Invariant(st)
    decreases |evs|
  {
    if |evs| == 0 then Init else Handle(Run(evs[..|evs| - 1]), evs[|evs| - 1]).server
  }

  /** The step that handles the last event of `evs`. */
  function LastStep(evs: seq<Inbound>): Step
    requires |evs| > 0
  {
    Handle(Run(evs[..|evs| - 1]), evs[|evs| - 1])
  }

  /**
   Room membership is exactly the join history: a socket is in a room iff some
   handled event was its `join chat` for that room or its successful `setup` as that user.
   Nothing ever leaves a room.
   */
  lemma {:induction false} RoomMembershipIsJoinHistory(evs: seq<Inbound>, s: SocketId, room: RoomName)
    ensures s in RoomMembers(Run(evs).rooms, room) <==> exists i :: 0 <= i < |evs| && Subscribes(evs[i], s, room)
    decreases |evs|
  {
    if |evs| > 0 {
      var pre := evs[..|evs| - 1];
      RoomMembershipIsJoinHistory(pre, s, room);
      if s in RoomMembers(Run(evs).rooms, room) && !Subscribes(evs[|evs| - 1], s, room) {
        var i :| 0 <= i < |pre| && Subscribes(pre[i], s, room);
        assert evs[i] == pre[i];
      }
      if exists i :: 0 <= i < |evs| && Subscribes(evs[i], s, room) {
        var i :| 0 <= i < |evs| && Subscribes(evs[i], s, room);
        if i < |evs| - 1 {
          assert pre[i] == evs[i];
        }
      }
    }
  }

  /** Room membership only grows along a run. */
  lemma {:induction false} RoomsOnlyGrow(evs: seq<Inbound>, k: nat, room: RoomName)
    requires k <= |evs|
    ensures RoomMembers(Run(evs[..k]).rooms, room) <= RoomMembers(Run(evs).rooms, room)
  {
    forall s | s in RoomMembers(Run(evs[..k]).rooms, room)
      ensures s in RoomMembers(Run(evs).rooms, room)
    {
      RoomMembershipIsJoinHistory(evs[..k], s, room);
      RoomMembershipIsJoinHistory(evs, s, room);
      var i :| 0 <= i < k && Subscribes(evs[..k][i], s, room);
      assert evs[i] == evs[..k][i];
    }
  }

  /** Which connections an emit reaches, given the rooms at the time of sending. */
  predicate Reaches(t: Target, sc: SocketId, rooms: Rooms)
  {
    match t
    case ToSocket(x) => x == sc
    case AllExcept(x) => x != sc
    case ToRoom(room, _) => sc in RoomMembers(rooms, room)
    case ToAll => true
  }

  /**
   A `typing` notice for chat `c` reaches only connections that earlier joined room `c`
   (by `join chat`, or by a `setup` whose user id is `c`).
   */
  lemma TypingReachesOnlyJoined(evs: seq<Inbound>, s: SocketId, c: ChatId, sc: SocketId)
    ensures Handle(Run(evs), OnTyping(s, c)) == Step(Run(evs), [Emit(ToRoom(c, s), TypingNotice(c))], [], false)
    ensures Reaches(ToRoom(c, s), sc, Run(evs).rooms) ==> exists i :: 0 <= i < |evs| && Subscribes(evs[i], sc, c)
  {
    RoomMembershipIsJoinHistory(evs, sc, c);
  }

  /** The same for `stop typing`: one notice to chat room `c`, reaching only connections that joined it. */
  lemma StopTypingReachesOnlyJoined(evs: seq<Inbound>, s: SocketId, c: ChatId, sc: SocketId)
    ensures Handle(Run(evs), OnStopTyping(s, c)) == Step(Run(evs), [Emit(ToRoom(c, s), StopTypingNotice(c))], [], false)
    ensures Reaches(ToRoom(c, s), sc, Run(evs).rooms) ==> exists i :: 0 <= i < |evs| && Subscribes(evs[i], sc, c)
  {
    RoomMembershipIsJoinHistory(evs, sc, c);
  }

  /**
   A `message read` receipt carries the message id and the reader's id to chat room
   `c` only, so it reaches only connections that joined that room.
   */
  lemma MessageReadReachesOnlyJoined(evs: seq<Inbound>, s: SocketId, messageId: string, reader: UserId,
                                     c: ChatId, sc: SocketId)
    ensures Handle(Run(evs), OnMessageRead(s, messageId, reader, c))
            == Step(Run(evs), [Emit(ToRoom(c, s), MessageRead(messageId, reader))], [], false)
    ensures Reaches(ToRoom(c, s), sc, Run(evs).rooms) ==> exists i :: 0 <= i < |evs| && Subscribes(evs[i], sc, c)
  {
    RoomMembershipIsJoinHistory(evs, sc, c);
  }

  /** A `chat deleted` notice is broadcast to every connection, joined to the chat or not, and changes nothing. */
  lemma ChatDeletedReachesEveryone(evs: seq<Inbound>, s: SocketId, c: ChatId, sc: SocketId)
    ensures var r := Handle(Run(evs), OnChatDeleted(s, c));
            && r.server == Run(evs) && |r.outbox| == 1 && r.outbox[0].event == ChatDeleted(c)
            && Reaches(r.outbox[0].target, sc, r.server.rooms)
  {
  }

  /**
   Last writer wins: after `setup` as `u` on `s1` and again on `s2`, closing the
   stale socket `s1` leaves `u` online on `s2`.
   */
  lemma StaleDisconnectKeepsUserOnline(st: Server, u: UserId, name: string, s1: SocketId, s2: SocketId, now: Time)
    requires Invariant(st)
    requires u != "" && s1 != s2
    ensures var d := Some(UserData(Some(u), name));
            var st1 := Setup(st, s1, d).server;
            var st2 := Setup(st1, s2, d).server;
            var st3 := Disconnect(st2, s1, now).server;
            u in st3.registry.entries && st3.registry.entries[u] == Entry(s2, Online, None)
  {
    var d := Some(UserData(Some(u), name));
    var st2 := Setup(Setup(st, s1, d).server, s2, d).server;
    assert Holds(st2.registry, u, s2);
  }

  /**
   A user set up on a socket no other entry holds goes offline, stamped with the
   disconnect time, when that socket closes; the other connections get the delta.
   */
  lemma {:induction false} SetupThenDisconnectIsOffline(st: Server, u: UserId, name: string, s: SocketId, now: Time)
    requires Invariant(st)
    requires u != ""
    requires forall v :: v in st.registry.entries ==> st.registry.entries[v].socketId != s
    ensures var st1 := Setup(st, s, Some(UserData(Some(u), name))).server;
            var r := Disconnect(st1, s, now);
            && u in r.server.registry.entries
            && r.server.registry.entries[u] == Entry(s, Offline, Some(now))
            && r.outbox == [Emit(AllExcept(s), UserStatusUpdate(u, Offline, Some(now)))]
  {
    var d := Some(UserData(Some(u), name));
    var st1 := Setup(st, s, d).server;
    assert forall v :: Holds(st1.registry, v, s) ==> v == u;
    assert Owner(st1.registry, s) == Some(u);
  }
}

=== FILE: wrappers.dfy ===
/** Optional values: the model's stand-in for JavaScript's `null` and `undefined`. */
module Wrappers {

  datatype Option<+T> = None | Some(value: T)
}
